=== FILE: README.md ===
# MCP chat drivers: a Dafny model of the per-turn transcript discipline

This project models the two drivers of the MCP client: the one-shot command-line run (`client1.py`) and the interactive Streamlit chat (`client2.py`). Both send a history to an LLM bound to the tools of some MCP servers. They run every tool call the LLM requests and add the results, correlated by call id. Then they ask the LLM once more for an answer.

What is left is a small deterministic machine over a list of messages:

- `System`, `Human`, `AI(reply, calls)` and `ToolResult(callId, output)` (module `Messages`).
- The LLMs are function parameters from a history to an `AI` response. `bound` is the model bound to the tools. `plain` is the same model without tools.
- Tool invocation is a function parameter `run(tool, input)`. It returns the serialized result.
- A turn returns its new history and a trace of events. The events are `Ask` (an LLM call and its exact input), `Invoke` (a tool run and its input) and `Append` (messages added to the history). The trace makes the order of side effects something a contract can state. `Transcript.Replay` rebuilds the history from a trace.

Modules:

- `Messages` (messages.dfy): the message, tool-call, tool and event datatypes.
- `Transcript` (transcript.dfy): replaying a trace, and the `Answered` predicate. `Answered` holds when every tool request in a history is followed at once by one result per request, in request order, with the request's id.
- `Registry` (registry.dfy): the name map `{t.name: t for t in tools}` that both drivers build.
- `ToolRound` (toolround.dfy): the loop over one response's tool calls, and how each driver defaults a call's arguments.
- `ChatApp` (chatapp.dfy): the chat driver. It covers one-time session init, the render filter, the turn handler, and page reruns over a whole conversation.
- `OneShot` (oneshot.dfy): the one-shot driver.

Behaviour of the code that the model keeps:

- The code runs exactly one tool round per turn. There is no loop back to the LLM and no round limit. The final call in `client2.py` uses the unbound model (client2.py:151-155).
- Tool results keep request order (client2.py:136-149, client1.py:62-74).
- An unknown tool name raises `KeyError`. The chat driver keeps whatever it already appended to the session history.

## Model

| member | source | states |
|---|---|---|
| `ChatApp.HandleTurn` | client2.py:112-162 | A turn only appends to the history. Empty input leaves everything unchanged. Otherwise the turn appends `Human(text)`, then the tool-bound LLM's response to the history ending in that message. With no tool calls, the turn completes with exactly those two messages appended. The turn raises exactly when the input is non-empty and some requested name is not registered |
| `ChatApp.TurnAnswersEveryCall` | client2.py:134-162 | With n requested calls, all registered, the turn completes and appends exactly n+3 messages. The i-th of the n results carries the i-th call's id and the output of running that call's registered tool on `tc.get("args") or {}`. The last message is the plain LLM's answer to everything before it, with text `content or ""` |
| `ChatApp.TurnRaisesKeyError` | client2.py:134-140 | With an unregistered name, the turn raises `KeyError` for the first unregistered name: every earlier name is registered. The history is left as `old ++ [Human, first]`. After its first three steps, the turn's only other steps are the tool runs of the calls before that name, in request order, each on its registered tool and `tc.get("args") or {}` |
| `ChatApp.TurnAsksOnHistory` | client2.py:116-155 | Each LLM call of a turn receives the full history as it stands at that moment, as rebuilt from the appends made before it |
| `ChatApp.TurnOneRound` | client2.py:120-155 | No turn calls an LLM more than twice. The tool-bound LLM is called only as the second step. The plain LLM is called only as the step before the last, and only when the turn completes a tool request. So there is at most one tool round, no final call after `KeyError`, and no final call when the response requested no tools |
| `ChatApp.TurnStartsWithRequest` | client2.py:112-134 | Every non-empty turn takes its first three steps in this order: append `Human(text)`, call the tool-bound LLM on the history ending in that message, append the response. When the response requests no tools, those three steps are the whole turn |
| `ChatApp.TurnRunsEveryCall` | client2.py:133-155 | When a turn completes a tool request with n calls, it has exactly n+6 steps. Step 3+i runs the i-th call's registered tool on `tc.get("args") or {}`, in request order. The step before the last calls the plain LLM on the history up to the last result |
| `ChatApp.TurnToolsRunAfterRequest` | client2.py:134-149 | Every tool runs while the history is exactly `old ++ [Human, first]`: the request was appended before any tool ran, and no result was appended yet |
| `ChatApp.TurnResultsOnce` | client2.py:136-151 | The results are appended in one batch, after the last tool ran. No other append of a turn holds a tool result |
| `ChatApp.TurnTrace` | client2.py:116-162 | Replaying the turn's trace of appends on the old history gives the history the turn leaves |
| `ChatApp.TurnKeepsAnswered` | client2.py:134-151 | If every tool request in the old history is answered, the new history has every request answered exactly when the turn completes. A `KeyError` leaves the request it was serving with no results |
| `ChatApp.FailedTurnLeavesRequestOpen` | client2.py:116-151 | After a turn that raised, the next non-empty turn calls the tool-bound LLM on a history whose earlier request still has no results |
| `ChatApp.FinalMessage` | client2.py:160-162 | The closing assistant message has no tool calls, so it is shown. Its text is the final response's text, or `""` when that text is absent |
| `ChatApp.Init` | client2.py:72-88 | Initialization runs only on a fresh session and leaves an initialized one unchanged. It starts the history as `[System(SYSTEM_PROMPT)]`. Its name map has exactly the discovered names as keys, and each name maps to a discovered tool of that name |
| `ChatApp.InitOnce` | client2.py:72-88 | Initializing a second time changes nothing, whatever the tools discovered later |
| `ChatApp.Rendered` | client2.py:93-102 | The render filter returns no more messages than the history holds, and each one is shown: a user message or an assistant message without tool calls |
| `ChatApp.RenderedFromHistory` | client2.py:93-102 | Every rendered message comes from the history |
| `ChatApp.RenderedKeepsShown` | client2.py:93-102 | Every shown message of the history is rendered: the filter drops only tool requests, tool results and the system prompt |
| `ChatApp.RenderedConcat` | client2.py:93-102 | The filter works message by message, in history order: rendering `a ++ b` gives the rendering of `a` followed by the rendering of `b` |
| `ChatApp.TurnRendering` | client2.py:93-162 | A completed turn adds exactly two rendered messages: the user's message, then one assistant answer. A turn that raised adds only the user's message. Tool requests and tool results are never rendered |
| `ChatApp.Rerun` | client2.py:72-162 | One page run keeps the session initialized and keeps its name map. It shows exactly the render filter of the history as it stood before the turn, and each shown message comes from that history. It then handles the input as a turn on the session's history and name map. The session's new history is the turn's, including the appends of a turn that raised. The run reports `KeyError` exactly when the turn raised it. With no input, the run changes nothing |
| `ChatApp.ConversationKeepsInit` | client2.py:72-162 | `Conversation` is a sequence of page runs. The session carries over from run to run, and discovery may return different tools on each run. Over any such sequence from a fresh session, the history keeps the system prompt at its head. The name map stays the one built from the tools discovered on the first run |
| `ToolRound.RunBatch` | client2.py:136-149 | The tool loop. Each call before the first unregistered name is run in order, with that call's tool and defaulted arguments. Each such call yields a result with the call's id and the tool's output. Results number as many as runs, and equal the number of calls exactly when no `KeyError` is raised. The `KeyError` names the first unregistered name, and no later call runs |
| `ToolRound.ResultsMatchCalls` | client1.py:62-74 | With all names registered, there is one run and one result per call, and the i-th result carries the i-th call's id |
| `ToolRound.StopsAtFirstUnknown` | client2.py:137-140 | If call k has the first unregistered name, exactly k tools were run and `KeyError(calls[k].name)` is raised |
| `ToolRound.ArgsOrEmpty` | client2.py:139 | The chat driver passes the call's args when they are a dictionary. A missing, `null` or empty args entry becomes `{}` |
| `ToolRound.ArgsGetDefault` | client1.py:65 | The one-shot driver defaults only a missing args entry to `{}`. A present `null` is passed on as `None`, and a dictionary is passed unchanged |
| `ToolRound.ArgPoliciesDiffer` | client1.py:65 | The two drivers give a tool different input exactly when the call's args entry is `null` |
| `Registry.NameMap` | client1.py:43 | The name map has one key per distinct tool name, and maps each name to a tool of that name |
| `Registry.LastWins` | client2.py:81 | The name map holds the last tool that carries a name: a later duplicate overrides every earlier one |
| `OneShot.RunOnce` | client1.py:38-80 | The first LLM call receives the prompt alone. The run prints the first reply, with one LLM call and no tool runs, exactly when that reply has no tool calls. It raises `KeyError` exactly when a requested name is not registered |
| `OneShot.NoToolsNoInvocations` | client1.py:58-60 | A reply without tool calls means no tool is invoked, and the run prints |
| `OneShot.ToolRoundTranscript` | client1.py:62-80 | With all names registered, each call runs once, in order, with its own (defaulted) arguments. The second LLM call receives exactly `[prompt, response]` followed by one result per call, in call order. Each result carries the call's id and the output of running that call's registered tool on `tc.get("args", {})`. Its reply is what is printed |
| `OneShot.UnknownToolStops` | client1.py:63-76 | An unregistered name raises `KeyError` for the first such name. Only the calls before it are run, none after it, and no second LLM call is made |
| `Messages.OrEmpty` | client2.py:161 | `content or ""`: absent text becomes `""`, and any other text is kept |

## Left out

- Streamlit page setup and the `st.chat_message` / `st.markdown` calls are UI. Only which messages the render filter selects is modelled. The chat driver also shows the current turn's messages as they arrive; those display calls are not modelled.
- MCP server discovery and transport (`MultiServerMCPClient`, `get_tools`, the `SERVERS` configurations) are process and network I/O through a library whose code is not part of this model. The discovered tools are a parameter.
- `ChatGroq`, `bind_tools` and `ainvoke` are an external LLM. They are modelled as total functions from a history to an assistant response, so LLM transport errors are not modelled.
- Tool invocation is a total function, so a tool that raises is not modelled. Neither driver catches such an exception, so it is never turned into a result message.
- `json.dumps` of tool results is folded into the opaque `run` function. No round-trip property is claimed.
- `asyncio.run` and `await` are not modelled. Everything runs sequentially, so there is no concurrency.
- `load_dotenv` and environment handling are left out. The one-shot driver's prints (client1.py:59, client1.py:80) are modelled only as `Printed.text`, the content each print shows. The `LLM Reply:` / `Final response:` labels and the write to standard output are left out. The print of the available tool names (client1.py:44) is left out too; the name map's keys are modelled.
- Tool calls are assumed to always carry `id` and `name`. Both drivers index them with `[]`, and a missing key would raise another `KeyError`, which is not modelled.
- `st.chat_input` returning `None` is folded into the empty string. Both are falsy and skip the turn.
- The one-shot driver sends the prompt as a bare string. LangChain turns it into a user message, and the model uses `Human(PROMPT)` in both LLM inputs.
- Multi-round tool loops, round caps and turning tool errors into results do not exist in the code, so they are not modelled.

=== FILE: chatapp.dfy ===
/**
 The interactive chat driver. A session is initialized once (system prompt,
 tool name map); every rerun of the page shows the history through the
 render filter and, when the user typed something, handles one turn: append
 the user's message, ask the tool-bound LLM, and either append its answer or
 append its tool request, run every requested tool, append all the results at
 once and ask the plain LLM for a final answer, which is appended with its
 text defaulted to "".

 The LLMs are the parameters `bound` (the model bound to the tool catalogue)
 and `plain` (the same model without tools); `run` invokes a tool and
 serializes its result.
 */
module ChatApp {
  import opened Messages
  import opened Transcript
  import opened Registry
  import opened ToolRound

  const SYSTEM_PROMPT: string :=
    "You have access to tools. "
    + "When you choose to call a tool, do not narrate status updates. "
    + "After tools run, return only a concise final answer."

  /** The page's session state: absent until the first run initializes it. */
  datatype Session = Fresh | Live(history: seq<Message>, toolByName: map<string, Tool>)

  /** One-time initialization, guarded by the `initialized` flag (here: `Live?`). */
  function Init(s: Session, tools: seq<Tool>): (r: Session)
    ensures r.Live?
    ensures s.Live? ==> r == s
    ensures s.Fresh? ==> r.history == [System(SYSTEM_PROMPT)]
    ensures s.Fresh? ==> r.toolByName.Keys == Names(tools)
    ensures s.Fresh? ==> forall k :: k in r.toolByName ==> r.toolByName[k].name == k && r.toolByName[k] in tools
  {
    if s.Live? then s else Live([System(SYSTEM_PROMPT)], NameMap(tools))
  }

  /** Initializing an initialized session changes nothing, whatever tools
      discovery would now return. */
  lemma InitOnce(s: Session, tools: seq<Tool>, later: seq<Tool>)
    ensures Init(Init(s, tools), later) == Init(s, tools)
  {
  }

  /** Whether the render loop shows a message: user messages and assistant
      messages without tool calls. */
  predicate Shown(m: Message)
  {
    m.Human? || (m.AI? && |m.calls| == 0)
  }

  /** The render filter: the shown messages of a history, in history order. */
  function Rendered(h: seq<Message>): (r: seq<Message>)
    ensures |r| <= |h|
    ensures forall i :: 0 <= i < |r| ==> Shown(r[i])
  {
    if |h| == 0 then []
    else (if Shown(h[0]) then [h[0]] else []) + Rendered(h[1..])
  }

  /** The filter only keeps messages of the history. */
  lemma {:induction false} RenderedFromHistory(h: seq<Message>)
    ensures forall m :: m in Rendered(h) ==> m in h
    decreases |h|
  {
    if |h| > 0 {
      RenderedFromHistory(h[1..]);
    }
  }

  /** No shown message is dropped by the filter. */
  lemma {:induction false} RenderedKeepsShown(h: seq<Message>, i: nat)
    requires i < |h| && Shown(h[i])
    ensures h[i] in Rendered(h)
    decreases |h|
  {
    if i > 0 {
      assert h[i] == h[1..][i - 1];
      RenderedKeepsShown(h[1..], i - 1);
    }
  }

  /** Rendering distributes over concatenation; with the one-message case it
      pins the filter down as "keep the shown messages, in order". */
  lemma {:induction false} RenderedConcat(a: seq<Message>, b: seq<Message>)
    ensures Rendered(a + b) == Rendered(a) + Rendered(b)
    decreases |a|
  {
    if |a| == 0 {
      assert a + b == b;
    } else {
      assert (a + b)[1..] == a[1..] + b;
      RenderedConcat(a[1..], b);
    }
  }

  /** A single message is rendered exactly when it is shown. */
  lemma RenderedOne(m: Message)
    ensures Rendered([m]) == (if Shown(m) then [m] else [])
  {
    assert [m][1..] == [];
  }

  /** The result of a turn: the new history, or the `KeyError` that escaped
      with the history as far as it had been extended. */
  datatype TurnOutcome =
    | Done(history: seq<Message>, events: seq<Event>)
    | Raised(error: Failure, history: seq<Message>, events: seq<Event>)

  /** The assistant message appended at the end of a tool round. */
  function FinalMessage(final: Response): (m: Message)
    ensures Shown(m) && !RequestsTools(m)
    ensures m.AI? && m.reply == Some(OrEmpty(final.reply))
  {
    AI(Some(OrEmpty(final.reply)), [])
  }

  /** One turn of the chat driver. An empty input is no turn at all. */
  function HandleTurn(history: seq<Message>, toolByName: map<string, Tool>, userText: string,
                      bound: seq<Message> -> Response, plain: seq<Message> -> Response,
                      run: (Tool, ToolInput) -> string): (o: TurnOutcome)
    // A turn only appends.
    ensures history <= o.history
    ensures userText == "" ==> o == Done(history, [])
    // The user's message, then the tool-bound LLM's response to the history ending in it.
    ensures userText != "" ==>
      |o.history| >= |history| + 2
      && o.history[|history|] == Human(userText)
      && o.history[|history| + 1] == bound(history + [Human(userText)])
    // No tool calls: exactly those two messages.
    ensures userText != "" && !RequestsTools(bound(history + [Human(userText)])) ==>
      o.Done? && |o.history| == |history| + 2
    // A KeyError exactly when a requested name is not registered.
    ensures o.Raised? <==>
      userText != "" && !AllKnown(bound(history + [Human(userText)]).calls, toolByName)
  {
    if userText == "" then Done(history, [])
    else
      var h1 := history + [Human(userText)];
      var first := bound(h1);
      var opening := Opening(history, userText, first);
      if |first.calls| == 0 then Done(h1 + [first], opening)
      else
        var h2 := h1 + [first];
        var b := RunBatch(first.calls, toolByName, ArgsOrEmpty, run);
        var running := opening + InvokeEvents(b.invoked);
        if b.failure.Some? then
          Raised(b.failure.value, h2, running)
        else
          var h3 := h2 + b.results;
          var answer := FinalMessage(plain(h3));
          Done(h3 + [answer], running + Closing(h2, b.results, answer))
  }

  /** A turn whose response requests n registered tools appends n + 3
      messages: the user's message, the request, one result per call in
      request order carrying that call's id and the output of that call's
      tool on its defaulted arguments, and the plain LLM's answer to
      the history up to the last result. */
  lemma TurnAnswersEveryCall(history: seq<Message>, toolByName: map<string, Tool>, userText: string,
                             bound: seq<Message> -> Response, plain: seq<Message> -> Response,
                             run: (Tool, ToolInput) -> string)
    requires userText != ""
    requires RequestsTools(bound(history + [Human(userText)]))
    requires AllKnown(bound(history + [Human(userText)]).calls, toolByName)
    ensures var o := HandleTurn(history, toolByName, userText, bound, plain, run);
      var calls := bound(history + [Human(userText)]).calls;
      && o.Done? && |o.history| == |history| + |calls| + 3
      && (forall i :: 0 <= i < |calls| ==>
            o.history[|history| + 2 + i]
              == ToolResult(calls[i].id, run(toolByName[calls[i].name], ArgsOrEmpty(calls[i].args))))
      && o.history[|o.history| - 1] == FinalMessage(plain(o.history[..|o.history| - 1]))
  {
    var h2 := history + [Human(userText)] + [bound(history + [Human(userText)])];
    var b := RunBatch(bound(history + [Human(userText)]).calls, toolByName, ArgsOrEmpty, run);
    var o := HandleTurn(history, toolByName, userText, bound, plain, run);
    assert o.history == h2 + b.results + [FinalMessage(plain(h2 + b.results))];
    assert o.history[..|o.history| - 1] == h2 + b.results;
    forall i | 0 <= i < |b.results|
      ensures o.history[|history| + 2 + i] == b.results[i]
    {
    }
  }

  /** A turn whose response names an unregistered tool raises `KeyError`
      for the first such name and leaves the history as the old one plus
      the user's message and the unanswered request. The tools of the
      calls before that name did run, in order, and nothing else happened
      after the response was appended. */
  lemma TurnRaisesKeyError(history: seq<Message>, toolByName: map<string, Tool>, userText: string,
                           bound: seq<Message> -> Response, plain: seq<Message> -> Response,
                           run: (Tool, ToolInput) -> string)
    requires userText != ""
    requires !AllKnown(bound(history + [Human(userText)]).calls, toolByName)
    ensures var o := HandleTurn(history, toolByName, userText, bound, plain, run);
      var calls := bound(history + [Human(userText)]).calls;
      && o.Raised? && o.error.key !in toolByName
      && (exists k :: 0 <= k < |calls| && o.error.key == calls[k].name
                      && forall i :: 0 <= i < k ==> calls[i].name in toolByName)
      && o.history == history + [Human(userText), bound(history + [Human(userText)])]
    ensures var o := HandleTurn(history, toolByName, userText, bound, plain, run);
      var calls := bound(history + [Human(userText)]).calls;
      var e := o.events;
      && 3 <= |e| < 3 + |calls| && o.error.key == calls[|e| - 3].name
      && forall i :: 0 <= i < |e| - 3 ==>
           calls[i].name in toolByName
           && e[3 + i] == Invoke(Invocation(toolByName[calls[i].name], ArgsOrEmpty(calls[i].args)))
  {
    var first := bound(history + [Human(userText)]);
    var b := RunBatch(first.calls, toolByName, ArgsOrEmpty, run);
    var k := |b.invoked|;
    var h2 := history + [Human(userText), first];
    var o := HandleTurn(history, toolByName, userText, bound, plain, run);
    TurnShape(history, toolByName, userText, bound, plain, run);
    assert o.events == RoundEvents(history, userText, first, b.invoked, b.results,
                                   FinalMessage(plain(h2 + b.results)), false);
    RoundAt(history, userText, first, b.invoked, b.results, FinalMessage(plain(h2 + b.results)), false);
    assert |o.events| == 3 + k && o.error == KeyError(first.calls[k].name);
    forall i | 0 <= i < k
      ensures o.events[3 + i] == Invoke(b.invoked[i])
    {
    }
  }

  /** The three events that open every non-empty turn. */
  function Opening(history: seq<Message>, userText: string, first: Message): seq<Event>
  {
    [Append([Human(userText)]), Ask(true, history + [Human(userText)]), Append([first])]
  }

  /** The three events that close a turn whose tools all ran. */
  function Closing(h2: seq<Message>, results: seq<Message>, answer: Message): seq<Event>
  {
    [Append(results), Ask(false, h2 + results), Append([answer])]
  }

  lemma OpeningReplay(history: seq<Message>, userText: string, first: Message)
    ensures Replay(history, Opening(history, userText, first)[..1]) == history + [Human(userText)]
    ensures Replay(history, Opening(history, userText, first)) == history + [Human(userText), first]
  {
    var h1 := history + [Human(userText)];
    var e := Opening(history, userText, first);
    assert e[..1] == [Append([Human(userText)])];
    ReplayAppend(history, [Human(userText)]);
    assert e == e[..1] + [Ask(true, h1)] + [Append([first])];
    ReplayConcat(history, e[..1], [Ask(true, h1)]);
    ReplayConcat(history, e[..1] + [Ask(true, h1)], [Append([first])]);
    ReplayAppend(h1, [first]);
  }

  lemma ClosingReplay(h2: seq<Message>, results: seq<Message>, answer: Message)
    ensures Replay(h2, Closing(h2, results, answer)[..2]) == h2 + results
    ensures Replay(h2, Closing(h2, results, answer)) == h2 + results + [answer]
  {
    var h3 := h2 + results;
    var e := Closing(h2, results, answer);
    assert e[..1] == [Append(results)];
    ReplayAppend(h2, results);
    assert e[..2] == e[..1] + [Ask(false, h3)];
    ReplayConcat(h2, e[..1], [Ask(false, h3)]);
    assert e == e[..2] + [Append([answer])];
    ReplayConcat(h2, e[..2], [Append([answer])]);
    ReplayAppend(h3, [answer]);
  }

  /** The trace of a turn with `invoked` tool runs, closed by the final call
      when `closed`. The no-tool turn is the one with no runs, not closed. */
  function RoundEvents(history: seq<Message>, userText: string, first: Message,
                       invoked: seq<Invocation>, results: seq<Message>, answer: Message,
                       closed: bool): seq<Event>
  {
    Opening(history, userText, first) + InvokeEvents(invoked)
    + (if closed then Closing(history + [Human(userText), first], results, answer) else [])
  }

  /** A non-empty turn, branch by branch: its trace is a round trace (closed
      only when every tool ran) and its history is what that trace appends. */
  lemma TurnShape(history: seq<Message>, toolByName: map<string, Tool>, userText: string,
                  bound: seq<Message> -> Response, plain: seq<Message> -> Response,
                  run: (Tool, ToolInput) -> string)
    requires userText != ""
    ensures var o := HandleTurn(history, toolByName, userText, bound, plain, run);
      var first := bound(history + [Human(userText)]);
      var b := RunBatch(first.calls, toolByName, ArgsOrEmpty, run);
      var h2 := history + [Human(userText), first];
      var closed := |first.calls| > 0 && b.failure.None?;
      var answer := FinalMessage(plain(h2 + b.results));
      && o.events == RoundEvents(history, userText, first, if |first.calls| == 0 then [] else b.invoked,
                                 b.results, answer, closed)
      && (o.Raised? <==> |first.calls| > 0 && b.failure.Some?)
      && o.history == (if closed then h2 + b.results + [answer] else h2)
  {
    var h1 := history + [Human(userText)];
    var first := bound(h1);
    assert h1 + [first] == history + [Human(userText), first];
    assert InvokeEvents([]) == [];
  }

  /** A round trace rebuilds the history of its turn: user message and
      response, then, when closed, the results and the answer. */
  lemma RoundReplay(history: seq<Message>, userText: string, first: Message,
                    invoked: seq<Invocation>, results: seq<Message>, answer: Message, closed: bool)
    ensures var h2 := history + [Human(userText), first];
      Replay(history, RoundEvents(history, userText, first, invoked, results, answer, closed))
        == if closed then h2 + results + [answer] else h2
  {
    var h2 := history + [Human(userText), first];
    var opening := Opening(history, userText, first);
    var inv := InvokeEvents(invoked);
    var closing := if closed then Closing(h2, results, answer) else [];
    OpeningReplay(history, userText, first);
    ReplayConcat(history, opening, inv);
    ReplayConcat(history, opening + inv, closing);
    if closed {
      ClosingReplay(h2, results, answer);
    } else {
      assert Replay(h2, closing) == h2;
    }
  }

  /** The events of a turn rebuild the history it leaves. */
  lemma TurnTrace(history: seq<Message>, toolByName: map<string, Tool>, userText: string,
                  bound: seq<Message> -> Response, plain: seq<Message> -> Response,
                  run: (Tool, ToolInput) -> string)
    ensures var o := HandleTurn(history, toolByName, userText, bound, plain, run);
      o.history == Replay(history, o.events)
  {
    if userText != "" {
      TurnShape(history, toolByName, userText, bound, plain, run);
      var first := bound(history + [Human(userText)]);
      var b := RunBatch(first.calls, toolByName, ArgsOrEmpty, run);
      var h2 := history + [Human(userText), first];
      RoundReplay(history, userText, first, if |first.calls| == 0 then [] else b.invoked,
                  b.results, FinalMessage(plain(h2 + b.results)), |first.calls| > 0 && b.failure.None?);
    }
  }

  /** The trace position by position. */
  lemma RoundAt(history: seq<Message>, userText: string, first: Message,
                invoked: seq<Invocation>, results: seq<Message>, answer: Message, closed: bool)
    ensures var e := RoundEvents(history, userText, first, invoked, results, answer, closed);
      var n := |invoked|;
      var h2 := history + [Human(userText), first];
      && |e| == 3 + n + (if closed then 3 else 0)
      && e[0] == Append([Human(userText)])
      && e[1] == Ask(true, history + [Human(userText)])
      && e[2] == Append([first])
      && (forall k :: 3 <= k < 3 + n ==> e[k] == Invoke(invoked[k - 3]))
      && (closed ==> e[3 + n] == Append(results) && e[4 + n] == Ask(false, h2 + results)
                     && e[5 + n] == Append([answer]))
  {
  }

  /** Every LLM call of trace `e` performed on `h` receives the history as
      it stands at that moment. */
  predicate AsksOnHistory(h: seq<Message>, e: seq<Event>)
  {
    forall k :: 0 <= k < |e| && e[k].Ask? ==> e[k].input == Replay(h, e[..k])
  }

  /** Every tool run of trace `e` performed on `h` happens while the history
      is `during`. */
  predicate RunsDuring(h: seq<Message>, e: seq<Event>, during: seq<Message>)
  {
    forall k :: 0 <= k < |e| && e[k].Invoke? ==> Replay(h, e[..k]) == during
  }

  /** Trace `e` appends tool results in a single batch, after its last tool run. */
  predicate ResultsAppendedOnce(e: seq<Event>)
  {
    forall j :: 0 <= j < |e| && e[j].Append? && HoldsResult(e[j].msgs) ==>
      (forall k :: 0 <= k < |e| && e[k].Invoke? ==> k < j)
      && (forall k :: 0 <= k < |e| && e[k].Append? && HoldsResult(e[k].msgs) ==> k == j)
  }

  /** Each LLM call of a turn is made on the history as it stands at that point. */
  lemma RoundAsksOnHistory(history: seq<Message>, userText: string, first: Message,
                           invoked: seq<Invocation>, results: seq<Message>, answer: Message, closed: bool)
    ensures AsksOnHistory(history, RoundEvents(history, userText, first, invoked, results, answer, closed))
  {
    var h2 := history + [Human(userText), first];
    var opening := Opening(history, userText, first);
    var inv := InvokeEvents(invoked);
    var closing := if closed then Closing(h2, results, answer) else [];
    var e := RoundEvents(history, userText, first, invoked, results, answer, closed);
    var n := |invoked|;
    RoundAt(history, userText, first, invoked, results, answer, closed);
    forall k | 0 <= k < |e| && e[k].Ask?
      ensures e[k].input == Replay(history, e[..k])
    {
      if k == 1 {
        OpeningReplay(history, userText, first);
        assert e[..1] == opening[..1];
      } else {
        assert closed && k == 4 + n;
        assert e[..k] == opening + inv + closing[..1];
        assert closing[..1] == Closing(h2, results, answer)[..2][..1];
        OpeningReplay(history, userText, first);
        ReplayConcat(history, opening, inv);
        ReplayConcat(history, opening + inv, closing[..1]);
        ReplayAppend(h2, results);
      }
    }
  }

  /** Every tool of a turn runs while the history ends in the request: the
      request was appended first and no result has been appended yet. */
  lemma RoundInvokesAfterRequest(history: seq<Message>, userText: string, first: Message,
                                 invoked: seq<Invocation>, results: seq<Message>, answer: Message, closed: bool)
    ensures RunsDuring(history, RoundEvents(history, userText, first, invoked, results, answer, closed),
                       history + [Human(userText), first])
  {
    var h2 := history + [Human(userText), first];
    var opening := Opening(history, userText, first);
    var inv := InvokeEvents(invoked);
    var closing := if closed then Closing(h2, results, answer) else [];
    var e := RoundEvents(history, userText, first, invoked, results, answer, closed);
    var n := |invoked|;
    RoundAt(history, userText, first, invoked, results, answer, closed);
    OpeningReplay(history, userText, first);
    forall k | 0 <= k < |e| && e[k].Invoke?
      ensures Replay(history, e[..k]) == h2
    {
      assert 3 <= k < 3 + n;
      assert e[..k] == opening + inv[..k - 3];
      ReplayConcat(history, opening, inv[..k - 3]);
    }
  }

  /** A turn calls the LLM at most twice: first with tools, then without. */
  lemma RoundAsksTwiceAtMost(history: seq<Message>, userText: string, first: Message,
                             invoked: seq<Invocation>, results: seq<Message>, answer: Message, closed: bool)
    ensures var e := RoundEvents(history, userText, first, invoked, results, answer, closed);
      forall k :: 0 <= k < |e| && e[k].Ask? ==>
        (k == 1 && e[k].withTools) || (closed && k == |e| - 2 && k > 1 && !e[k].withTools)
  {
    RoundAt(history, userText, first, invoked, results, answer, closed);
  }

  /** The results are appended together, once, after every tool has run. */
  lemma RoundResultsOnce(history: seq<Message>, userText: string, first: Message,
                         invoked: seq<Invocation>, results: seq<Message>, answer: Message, closed: bool)
    requires first.AI? && answer.AI?
    ensures var e := RoundEvents(history, userText, first, invoked, results, answer, closed);
      forall j :: 0 <= j < |e| && e[j].Append? && HoldsResult(e[j].msgs) ==>
        j == |invoked| + 3 && e[j].msgs == results
        && forall k :: 0 <= k < |e| && e[k].Invoke? ==> k < j
    ensures ResultsAppendedOnce(RoundEvents(history, userText, first, invoked, results, answer, closed))
  {
    RoundAt(history, userText, first, invoked, results, answer, closed);
    assert !HoldsResult([Human(userText)]);
    assert !HoldsResult([first]);
    assert !HoldsResult([answer]);
  }

  /** Each LLM call of a chat turn is made on the whole history as it
      stands at that moment. */
  lemma TurnAsksOnHistory(history: seq<Message>, toolByName: map<string, Tool>, userText: string,
                  bound: seq<Message> -> Response, plain: seq<Message> -> Response,
                  run: (Tool, ToolInput) -> string)
    ensures AsksOnHistory(history, HandleTurn(history, toolByName, userText, bound, plain, run).events)
  {
    if userText != "" {
      TurnShape(history, toolByName, userText, bound, plain, run);
      var first := bound(history + [Human(userText)]);
      var b := RunBatch(first.calls, toolByName, ArgsOrEmpty, run);
      var h2 := history + [Human(userText), first];
      RoundAsksOnHistory(history, userText, first, if |first.calls| == 0 then [] else b.invoked,
                 b.results, FinalMessage(plain(h2 + b.results)), |first.calls| > 0 && b.failure.None?);
    }
  }

  /** One tool round per turn: the tool-bound LLM is called once, and the
      plain one at most once after it, only when the turn completes a tool
      request, so never after a `KeyError` and never when no tool was
      requested. */
  lemma TurnOneRound(history: seq<Message>, toolByName: map<string, Tool>, userText: string,
                  bound: seq<Message> -> Response, plain: seq<Message> -> Response,
                  run: (Tool, ToolInput) -> string)
    ensures var o := HandleTurn(history, toolByName, userText, bound, plain, run);
      var e := o.events;
      forall k :: 0 <= k < |e| && e[k].Ask? ==>
        || (k == 1 && e[k].withTools)
        || (o.Done? && RequestsTools(bound(history + [Human(userText)]))
            && k == |e| - 2 && k > 1 && !e[k].withTools)
  {
    if userText != "" {
      TurnShape(history, toolByName, userText, bound, plain, run);
      var first := bound(history + [Human(userText)]);
      var b := RunBatch(first.calls, toolByName, ArgsOrEmpty, run);
      var h2 := history + [Human(userText), first];
      RoundAsksTwiceAtMost(history, userText, first, if |first.calls| == 0 then [] else b.invoked,
                 b.results, FinalMessage(plain(h2 + b.results)), |first.calls| > 0 && b.failure.None?);
    }
  }

  /** Every tool of a chat turn runs while the history is the old one plus
      the user's message and the request: the request was appended before
      any tool ran, and no result was appended while tools ran. */
  lemma TurnToolsRunAfterRequest(history: seq<Message>, toolByName: map<string, Tool>, userText: string,
                  bound: seq<Message> -> Response, plain: seq<Message> -> Response,
                  run: (Tool, ToolInput) -> string)
    ensures RunsDuring(history, HandleTurn(history, toolByName, userText, bound, plain, run).events,
                       history + [Human(userText), bound(history + [Human(userText)])])
  {
    if userText != "" {
      TurnShape(history, toolByName, userText, bound, plain, run);
      var first := bound(history + [Human(userText)]);
      var b := RunBatch(first.calls, toolByName, ArgsOrEmpty, run);
      var h2 := history + [Human(userText), first];
      RoundInvokesAfterRequest(history, userText, first, if |first.calls| == 0 then [] else b.invoked,
                 b.results, FinalMessage(plain(h2 + b.results)), |first.calls| > 0 && b.failure.None?);
    }
  }

  /** Every non-empty chat turn starts by appending the user's message,
      calling the tool-bound LLM on the history ending in it, and appending
      the response. */
  lemma TurnStartsWithRequest(history: seq<Message>, toolByName: map<string, Tool>, userText: string,
                       bound: seq<Message> -> Response, plain: seq<Message> -> Response,
                       run: (Tool, ToolInput) -> string)
    requires userText != ""
    ensures var e := HandleTurn(history, toolByName, userText, bound, plain, run).events;
      && |e| >= 3 && e[0] == Append([Human(userText)])
      && e[1] == Ask(true, history + [Human(userText)])
      && e[2] == Append([bound(history + [Human(userText)])])
    // A response without tool calls ends the turn right there.
    ensures !RequestsTools(bound(history + [Human(userText)])) ==>
      |HandleTurn(history, toolByName, userText, bound, plain, run).events| == 3
  {
    TurnShape(history, toolByName, userText, bound, plain, run);
    var first := bound(history + [Human(userText)]);
    var b := RunBatch(first.calls, toolByName, ArgsOrEmpty, run);
    var h2 := history + [Human(userText), first];
    RoundAt(history, userText, first, if |first.calls| == 0 then [] else b.invoked,
            b.results, FinalMessage(plain(h2 + b.results)), |first.calls| > 0 && b.failure.None?);
  }

  /** A chat turn that completes a tool request runs every requested tool, in
      request order, on its defaulted arguments, and then calls the plain LLM
      on the history up to the last result. */
  lemma TurnRunsEveryCall(history: seq<Message>, toolByName: map<string, Tool>, userText: string,
                       bound: seq<Message> -> Response, plain: seq<Message> -> Response,
                       run: (Tool, ToolInput) -> string)
    requires userText != ""
    requires RequestsTools(bound(history + [Human(userText)]))
    ensures var o := HandleTurn(history, toolByName, userText, bound, plain, run);
      var e := o.events;
      var calls := bound(history + [Human(userText)]).calls;
      o.Done? ==>
        && |e| == |calls| + 6
        && (forall i :: 0 <= i < |calls| ==>
              calls[i].name in toolByName
              && e[3 + i] == Invoke(Invocation(toolByName[calls[i].name], ArgsOrEmpty(calls[i].args))))
        && e[|e| - 2] == Ask(false, o.history[..|o.history| - 1])
  {
    TurnShape(history, toolByName, userText, bound, plain, run);
    var o := HandleTurn(history, toolByName, userText, bound, plain, run);
    var first := bound(history + [Human(userText)]);
    var b := RunBatch(first.calls, toolByName, ArgsOrEmpty, run);
    var h2 := history + [Human(userText), first];
    var answer := FinalMessage(plain(h2 + b.results));
    RoundAt(history, userText, first, b.invoked, b.results, answer, b.failure.None?);
    if o.Done? {
      assert o.history[..|o.history| - 1] == h2 + b.results;
    }
  }

  /** A chat turn appends its tool results in a single batch, after the last
      tool ran. */
  lemma TurnResultsOnce(history: seq<Message>, toolByName: map<string, Tool>, userText: string,
                  bound: seq<Message> -> Response, plain: seq<Message> -> Response,
                  run: (Tool, ToolInput) -> string)
    ensures ResultsAppendedOnce(HandleTurn(history, toolByName, userText, bound, plain, run).events)
  {
    if userText != "" {
      TurnShape(history, toolByName, userText, bound, plain, run);
      var first := bound(history + [Human(userText)]);
      var b := RunBatch(first.calls, toolByName, ArgsOrEmpty, run);
      var h2 := history + [Human(userText), first];
      RoundResultsOnce(history, userText, first, if |first.calls| == 0 then [] else b.invoked,
                 b.results, FinalMessage(plain(h2 + b.results)), |first.calls| > 0 && b.failure.None?);
    }
  }

  /** The three shapes a turn's history can take, and whether each is answered. */
  lemma AnsweredShapes(history: seq<Message>, userText: string, first: Response,
                       results: seq<Message>, answer: Message, completed: bool)
    requires Answered(history)
    requires answer.AI? && |answer.calls| == 0
    requires |first.calls| > 0 && completed ==>
      |results| == |first.calls|
      && forall k :: 0 <= k < |results| ==> results[k].ToolResult? && results[k].callId == first.calls[k].id
    ensures var h2 := history + [Human(userText), first];
      && (|first.calls| == 0 ==> Answered(h2))
      && (|first.calls| > 0 && !completed ==> !Answered(h2))
      && (|first.calls| > 0 && completed ==> Answered(h2 + results + [answer]))
  {
    var h2 := history + [Human(userText), first];
    if |first.calls| == 0 {
      ExchangeAnswered(userText, first);
      AnsweredConcat(history, [Human(userText), first]);
    } else if !completed {
      assert h2 == (history + [Human(userText)]) + [first];
      OpenRequestUnanswered(history + [Human(userText)], first);
    } else {
      var ext := [Human(userText), first] + results + [answer];
      assert h2 + results + [answer] == history + ext;
      RoundAnswered(userText, first, results, answer);
      AnsweredConcat(history, ext);
    }
  }

  /** From a history whose tool requests are all answered, a turn leaves an
      answered history exactly when it completes: a `KeyError` leaves the
      request it was serving with no results. */
  lemma TurnKeepsAnswered(history: seq<Message>, toolByName: map<string, Tool>, userText: string,
                          bound: seq<Message> -> Response, plain: seq<Message> -> Response,
                          run: (Tool, ToolInput) -> string)
    requires Answered(history)
    ensures var o := HandleTurn(history, toolByName, userText, bound, plain, run);
      Answered(o.history) <==> o.Done?
  {
    if userText != "" {
      TurnShape(history, toolByName, userText, bound, plain, run);
      var first := bound(history + [Human(userText)]);
      var b := RunBatch(first.calls, toolByName, ArgsOrEmpty, run);
      var h2 := history + [Human(userText), first];
      AnsweredShapes(history, userText, first, b.results, FinalMessage(plain(h2 + b.results)), b.failure.None?);
    }
  }

  /** After a `KeyError`, the next turn hands the tool-bound LLM a history in
      which the failed request still has no results. */
  lemma FailedTurnLeavesRequestOpen(history: seq<Message>, toolByName: map<string, Tool>, userText: string,
                                    nextText: string,
                                    bound: seq<Message> -> Response, plain: seq<Message> -> Response,
                                    run: (Tool, ToolInput) -> string)
    requires HandleTurn(history, toolByName, userText, bound, plain, run).Raised?
    requires nextText != ""
    ensures var o := HandleTurn(history, toolByName, userText, bound, plain, run);
      var next := HandleTurn(o.history, toolByName, nextText, bound, plain, run);
      next.events[1].Ask? && !Answered(next.events[1].input)
  {
    var o := HandleTurn(history, toolByName, userText, bound, plain, run);
    var first := bound(history + [Human(userText)]);
    TurnShape(history, toolByName, userText, bound, plain, run);
    var input := o.history + [Human(nextText)];
    TurnShape(o.history, toolByName, nextText, bound, plain, run);
    var next := bound(input);
    var b := RunBatch(next.calls, toolByName, ArgsOrEmpty, run);
    var h2 := input + [next];
    RoundAt(o.history, nextText, next, if |next.calls| == 0 then [] else b.invoked,
            b.results, FinalMessage(plain(h2 + b.results)), |next.calls| > 0 && b.failure.None?);
    assert input == (history + [Human(userText)]) + [first] + [Human(nextText)];
    var i := |history| + 1;
    assert input[i] == first;
    assert !AnswersCall(input, i, 0);
  }

  /** Tool results are never rendered. */
  lemma ResultsHidden(results: seq<Message>)
    requires forall k :: 0 <= k < |results| ==> results[k].ToolResult?
    ensures Rendered(results) == []
  {
  }

  /** Rendering a user message and a response shows the response only
      when it requests no tools. */
  lemma RenderedExchange(history: seq<Message>, userText: string, first: Response)
    ensures |first.calls| == 0 ==>
      Rendered(history + [Human(userText), first]) == Rendered(history) + [Human(userText), first]
    ensures |first.calls| > 0 ==>
      Rendered(history + [Human(userText), first]) == Rendered(history) + [Human(userText)]
  {
    var pair := [Human(userText), first];
    assert pair == [Human(userText)] + [first];
    RenderedConcat(history, pair);
    RenderedConcat([Human(userText)], [first]);
    RenderedOne(Human(userText));
    RenderedOne(first);
    if |first.calls| == 0 {
      assert Rendered(pair) == pair;
    } else {
      assert Rendered(pair) == [Human(userText)];
    }
  }

  /** Results and an answer without tool calls add only the answer. */
  lemma RenderedClosing(h2: seq<Message>, results: seq<Message>, answer: Message)
    requires answer.AI? && |answer.calls| == 0
    requires forall k :: 0 <= k < |results| ==> results[k].ToolResult?
    ensures Rendered(h2 + results + [answer]) == Rendered(h2) + [answer]
  {
    RenderedConcat(h2, results);
    RenderedConcat(h2 + results, [answer]);
    RenderedOne(answer);
    ResultsHidden(results);
  }

  /** The rendering of a round's history: the user's message, then the
      response when it requests no tools, or the answer when the round closed. */
  lemma RoundRendering(history: seq<Message>, userText: string, first: Response,
                       results: seq<Message>, answer: Message, closed: bool)
    requires closed ==> |first.calls| > 0
    requires answer.AI? && |answer.calls| == 0
    requires forall k :: 0 <= k < |results| ==> results[k].ToolResult?
    ensures var h2 := history + [Human(userText), first];
      var h := if closed then h2 + results + [answer] else h2;
      && (|first.calls| == 0 ==> Rendered(h) == Rendered(history) + [Human(userText), h[|h| - 1]])
      && (closed ==> Rendered(h) == Rendered(history) + [Human(userText), h[|h| - 1]])
      && (|first.calls| > 0 && !closed ==> Rendered(h) == Rendered(history) + [Human(userText)])
  {
    var h2 := history + [Human(userText), first];
    RenderedExchange(history, userText, first);
    if closed {
      RenderedClosing(h2, results, answer);
      assert Rendered(history) + [Human(userText)] + [answer] == Rendered(history) + [Human(userText), answer];
    }
  }

  /** What the user sees of a turn: their own message and one assistant
      answer when the turn completes, only their message when it raised, and
      nothing new for an empty input. Requests and tool results are never shown. */
  lemma TurnRendering(history: seq<Message>, toolByName: map<string, Tool>, userText: string,
                      bound: seq<Message> -> Response, plain: seq<Message> -> Response,
                      run: (Tool, ToolInput) -> string)
    ensures var o := HandleTurn(history, toolByName, userText, bound, plain, run);
      && (userText == "" ==> Rendered(o.history) == Rendered(history))
      && (userText != "" && o.Done? ==>
            Rendered(o.history) == Rendered(history) + [Human(userText), o.history[|o.history| - 1]])
      && (o.Raised? ==> Rendered(o.history) == Rendered(history) + [Human(userText)])
  {
    if userText != "" {
      TurnShape(history, toolByName, userText, bound, plain, run);
      var first := bound(history + [Human(userText)]);
      var b := RunBatch(first.calls, toolByName, ArgsOrEmpty, run);
      var h2 := history + [Human(userText), first];
      RoundRendering(history, userText, first, b.results, FinalMessage(plain(h2 + b.results)),
                     |first.calls| > 0 && b.failure.None?);
    }
  }

  /** One run of the page: initialize if needed, show the history, then
      handle the user's input. An escaping `KeyError` ends the run, but the
      appends it made to the session's history stay. */
  datatype RunResult = RunResult(session: Session, shown: seq<Message>, raised: Option<Failure>)

  function Rerun(s: Session, tools: seq<Tool>, userText: string,
                 bound: seq<Message> -> Response, plain: seq<Message> -> Response,
                 run: (Tool, ToolInput) -> string): (r: RunResult)
    ensures r.session.Live?
    ensures r.session.toolByName == Init(s, tools).toolByName
    ensures Init(s, tools).history <= r.session.history
    ensures forall m :: m in r.shown ==> Shown(m) && m in Init(s, tools).history
    ensures userText == "" ==> r.session == Init(s, tools) && r.raised.None?
    // The page shows every shown message of the history as it stood
    // before the turn, then performs the turn on the session's history and
    // name map; the turn's appends stay even when `KeyError` escapes.
    ensures r.shown == Rendered(Init(s, tools).history)
    ensures var live := Init(s, tools);
      var o := HandleTurn(live.history, live.toolByName, userText, bound, plain, run);
      r.session.history == o.history && (r.raised.Some? <==> o.Raised?)
      && (o.Raised? ==> r.raised == Some(o.error))
  {
    var live := Init(s, tools);
    RenderedFromHistory(live.history);
    var o := HandleTurn(live.history, live.toolByName, userText, bound, plain, run);
    RunResult(Live(o.history, live.toolByName), Rendered(live.history),
              if o.Raised? then Some(o.error) else None)
  }

  /** One user input per page run, with what discovery returned on that run. */
  datatype Step = Step(tools: seq<Tool>, userText: string)

  function Conversation(s: Session, steps: seq<Step>,
                        bound: seq<Message> -> Response, plain: seq<Message> -> Response,
                        run: (Tool, ToolInput) -> string): Session
    decreases |steps|
  {
    if |steps| == 0 then s
    else Conversation(Rerun(s, steps[0].tools, steps[0].userText, bound, plain, run).session,
                      steps[1..], bound, plain, run)
  }

  /** Over any sequence of runs from a fresh session, the history keeps the
      system prompt at its head and the name map is the one built from the
      tools discovered on the first run. */
  lemma {:induction false} ConversationKeepsInit(s: Session, steps: seq<Step>,
                                                 bound: seq<Message> -> Response, plain: seq<Message> -> Response,
                                                 run: (Tool, ToolInput) -> string)
    requires s.Fresh? || (|s.history| > 0 && s.history[0] == System(SYSTEM_PROMPT))
    requires |steps| > 0 || s.Live?
    ensures var c := Conversation(s, steps, bound, plain, run);
      && c.Live? && |c.history| > 0 && c.history[0] == System(SYSTEM_PROMPT)
      && c.toolByName == (if s.Live? then s.toolByName else NameMap(steps[0].tools))
    decreases |steps|
  {
    if |steps| > 0 {
      var r := Rerun(s, steps[0].tools, steps[0].userText, bound, plain, run);
      assert r.session.history[0] == System(SYSTEM_PROMPT);
      ConversationKeepsInit(r.session, steps[1..], bound, plain, run);
    }
  }
}

=== FILE: messages.dfy ===
/**
 The vocabulary shared by both chat drivers: the messages of a chat history,
 the tool calls an assistant message may carry, the tools discovered from the
 tool servers, and the events a turn performs (LLM calls, tool invocations and
 history appends), in the order it performs them.
 */
module Messages {

  datatype Option<+T> = None | Some(value: T)

  /** The `args` entry of a tool call as the model returned it: missing,
      present but `null`, or a dictionary of argument values. */
  datatype Args = Absent | Null | Dict(fields: map<string, string>)

  /** One tool request of an assistant message. */
  datatype ToolCall = ToolCall(id: string, name: string, args: Args)

  /** A history entry. `AI.reply` is `None` when the model sent no text. */
  datatype Message =
    | System(text: string)
    | Human(text: string)
    | AI(reply: Option<string>, calls: seq<ToolCall>)
    | ToolResult(callId: string, output: string)

  /** What an LLM call returns: always an assistant message. */
  type Response = m: Message | m.AI? witness AI(None, [])

  /** The value a tool is invoked with: Python `None` or a dictionary. */
  datatype ToolInput = NoneValue | Mapping(fields: map<string, string>)

  /** A discovered tool: its name and an opaque handle naming the server
      capability that runs it. */
  datatype Tool = Tool(name: string, handle: nat)

  datatype Invocation = Invocation(tool: Tool, arg: ToolInput)

  /** The observable steps of a turn, in the order they happen. */
  datatype Event =
    | Ask(withTools: bool, input: seq<Message>)
    | Invoke(call: Invocation)
    | Append(msgs: seq<Message>)

  /** The only exception the drivers raise themselves: a dictionary lookup
      of a tool name that was never registered. */
  datatype Failure = KeyError(key: string)

  /** True of an assistant message that requests at least one tool. */
  predicate RequestsTools(m: Message)
  {
    m.AI? && |m.calls| > 0
  }

  /** Python's `content or ""` on an assistant's text: an absent or empty
      text becomes the empty string, any other text is kept. */
  function OrEmpty(c: Option<string>): (s: string)
    ensures c.None? ==> s == ""
    ensures c.Some? ==> s == c.value
  {
    match c
    case Some(t) => t
    case None => ""
  }

  /** The tool invocations of a batch, as events. */
  function InvokeEvents(invs: seq<Invocation>): (es: seq<Event>)
    ensures |es| == |invs|
    ensures forall i :: 0 <= i < |es| ==> es[i].Invoke? && es[i].call == invs[i]
  {
    seq(|invs|, i requires 0 <= i < |invs| => Invoke(invs[i]))
  }
}

=== FILE: oneshot.dfy ===
/**
 The one-shot command-line driver: build the tool name map, ask the
 tool-bound LLM about a fixed prompt, print its reply if it requested no
 tool; otherwise run every requested tool, then ask the same LLM again with
 the prompt, its response and the tool results, and print that answer.

 The prompt string is sent as a user message; `llm` is the tool-bound model
 and `run` invokes a tool and serializes its result.
 */
module OneShot {
  import opened Messages
  import opened Registry
  import opened ToolRound

  const PROMPT: string := "roll a dice from dice server."

  /** What the run ends with: the text it prints, or the `KeyError` that
      escaped. Either way, the events it performed. */
  datatype Outcome =
    | Printed(text: Option<string>, events: seq<Event>)
    | Raised(error: Failure, events: seq<Event>)

  function RunOnce(tools: seq<Tool>, llm: seq<Message> -> Response,
                   run: (Tool, ToolInput) -> string): (o: Outcome)
    // The first LLM call is on the prompt alone.
    ensures |o.events| >= 1 && o.events[0] == Ask(true, [Human(PROMPT)])
    // No tool calls: the reply is printed; one LLM call, no tool runs.
    ensures var response := llm([Human(PROMPT)]);
      !RequestsTools(response) <==> o == Printed(response.reply, [Ask(true, [Human(PROMPT)])])
    // A KeyError exactly when a requested name was never registered.
    ensures o.Raised? <==> !AllKnown(llm([Human(PROMPT)]).calls, NameMap(tools))
  {
    var byName := NameMap(tools);
    var question := [Human(PROMPT)];
    var response := llm(question);
    if |response.calls| == 0 then Printed(response.reply, [Ask(true, question)])
    else
      var b := RunBatch(response.calls, byName, ArgsGetDefault, run);
      var running := [Ask(true, question)] + InvokeEvents(b.invoked);
      if b.failure.Some? then Raised(b.failure.value, running)
      else
        var transcript := [Human(PROMPT), response] + b.results;
        Printed(llm(transcript).reply, running + [Ask(true, transcript)])
  }

  /** A reply without tool calls means no tool is invoked and the LLM is
      called once. */
  lemma NoToolsNoInvocations(tools: seq<Tool>, llm: seq<Message> -> Response,
                             run: (Tool, ToolInput) -> string)
    requires !RequestsTools(llm([Human(PROMPT)]))
    ensures var o := RunOnce(tools, llm, run);
      o.Printed? && forall k :: 0 <= k < |o.events| ==> !o.events[k].Invoke?
  {
  }

  /** The events of a run whose tools all ran: the first call, one run per
      call in order, and the second call on the prompt, the response and the
      results. */
  lemma CompletedEvents(calls: seq<ToolCall>, byName: map<string, Tool>,
                        run: (Tool, ToolInput) -> string, b: Batch, response: Message, e: seq<Event>)
    requires b == RunBatch(calls, byName, ArgsGetDefault, run) && b.failure.None?
    requires e == [Ask(true, [Human(PROMPT)])] + InvokeEvents(b.invoked)
                  + [Ask(true, [Human(PROMPT), response] + b.results)]
    ensures |e| == |calls| + 2
    ensures forall i :: 0 <= i < |calls| ==>
      e[1 + i] == Invoke(Invocation(byName[calls[i].name], ArgsGetDefault(calls[i].args)))
    ensures var last := e[|e| - 1];
      && last.Ask? && last.withTools && |last.input| == |calls| + 2
      && last.input[..2] == [Human(PROMPT), response]
      && forall i :: 0 <= i < |calls| ==>
           last.input[2 + i] == ToolResult(calls[i].id, run(byName[calls[i].name], ArgsGetDefault(calls[i].args)))
  {
    var inv := InvokeEvents(b.invoked);
    var transcript := [Human(PROMPT), response] + b.results;
    assert |inv| == |calls|;
    assert e[|e| - 1] == Ask(true, transcript);
    assert transcript[..2] == [Human(PROMPT), response];
    forall i | 0 <= i < |calls|
      ensures e[1 + i] == Invoke(b.invoked[i])
    {
      assert e[1 + i] == inv[i];
    }
    forall i | 0 <= i < |calls|
      ensures transcript[2 + i] == b.results[i]
    {
    }
  }

  /** With every requested tool registered: each call is run once, in
      request order, with its own arguments (`null` passed through); the
      second LLM call receives exactly the prompt, the response and one
      result per call carrying that call's id and the output of that call's
      tool on its arguments; its reply is what is printed. */
  lemma ToolRoundTranscript(tools: seq<Tool>, llm: seq<Message> -> Response,
                            run: (Tool, ToolInput) -> string)
    requires RequestsTools(llm([Human(PROMPT)]))
    requires AllKnown(llm([Human(PROMPT)]).calls, NameMap(tools))
    ensures var o := RunOnce(tools, llm, run);
      var response := llm([Human(PROMPT)]);
      var calls := response.calls;
      var byName := NameMap(tools);
      && o.Printed? && |o.events| == |calls| + 2
      && (forall i :: 0 <= i < |calls| ==>
            o.events[1 + i] == Invoke(Invocation(byName[calls[i].name], ArgsGetDefault(calls[i].args))))
      && var last := o.events[|o.events| - 1];
         && last.Ask? && last.withTools && |last.input| == |calls| + 2
         && last.input[..2] == [Human(PROMPT), response]
         && (forall i :: 0 <= i < |calls| ==>
               last.input[2 + i] == ToolResult(calls[i].id, run(byName[calls[i].name], ArgsGetDefault(calls[i].args))))
         && o.text == llm(last.input).reply
  {
    var response := llm([Human(PROMPT)]);
    var b := RunBatch(response.calls, NameMap(tools), ArgsGetDefault, run);
    var transcript := [Human(PROMPT), response] + b.results;
    var o := RunOnce(tools, llm, run);
    assert o == Printed(llm(transcript).reply,
                        [Ask(true, [Human(PROMPT)])] + InvokeEvents(b.invoked) + [Ask(true, transcript)]);
    CompletedEvents(response.calls, NameMap(tools), run, b, response, o.events);
  }

  /** The events of a run cut short by a `KeyError`: the first call, then one
      run per call before the first unregistered name, and nothing else. */
  lemma RaisedEvents(calls: seq<ToolCall>, byName: map<string, Tool>,
                     run: (Tool, ToolInput) -> string, b: Batch, e: seq<Event>)
    requires b == RunBatch(calls, byName, ArgsGetDefault, run) && b.failure.Some?
    requires e == [Ask(true, [Human(PROMPT)])] + InvokeEvents(b.invoked)
    ensures 1 <= |e| <= |calls| && calls[|e| - 1].name == b.failure.value.key
    ensures b.failure.value.key !in byName
    ensures forall i :: 0 <= i < |e| - 1 ==>
      calls[i].name in byName
      && e[1 + i] == Invoke(Invocation(byName[calls[i].name], ArgsGetDefault(calls[i].args)))
  {
    forall i | 0 <= i < |e| - 1
      ensures e[1 + i] == Invoke(b.invoked[i])
    {
      assert e[1 + i] == InvokeEvents(b.invoked)[i];
    }
  }

  /** A requested name that was never registered raises `KeyError` for the
      first such name: only the calls before it were run, none after, and
      the LLM is not called a second time. */
  lemma UnknownToolStops(tools: seq<Tool>, llm: seq<Message> -> Response,
                         run: (Tool, ToolInput) -> string)
    requires !AllKnown(llm([Human(PROMPT)]).calls, NameMap(tools))
    ensures var o := RunOnce(tools, llm, run);
      var calls := llm([Human(PROMPT)]).calls;
      var byName := NameMap(tools);
      && o.Raised? && o.error.key !in byName
      && 1 <= |o.events| <= |calls|
      && calls[|o.events| - 1].name == o.error.key
      && (forall i :: 0 <= i < |o.events| - 1 ==>
            calls[i].name in byName
            && o.events[1 + i] == Invoke(Invocation(byName[calls[i].name], ArgsGetDefault(calls[i].args))))
  {
    var response := llm([Human(PROMPT)]);
    var b := RunBatch(response.calls, NameMap(tools), ArgsGetDefault, run);
    var o := RunOnce(tools, llm, run);
    assert o == Raised(b.failure.value, [Ask(true, [Human(PROMPT)])] + InvokeEvents(b.invoked));
    RaisedEvents(response.calls, NameMap(tools), run, b, o.events);
  }
}

=== FILE: registry.dfy ===
/**
 The tool registry: the dictionary from tool name to tool that both drivers
 build from the discovered tools with `{t.name: t for t in tools}`.
 */
module Registry {
  import opened Messages

  /** The names of a list of tools. */
  function Names(tools: seq<Tool>): set<string>
  {
    set i | 0 <= i < |tools| :: tools[i].name
  }

  /** The name map, built left to right so that a later tool with an already
      seen name replaces the earlier one. */
  function NameMap(tools: seq<Tool>): (m: map<string, Tool>)
    ensures m.Keys == Names(tools)
    ensures forall k :: k in m ==> m[k].name == k && m[k] in tools
    ensures |m| <= |tools|
  {
    if |tools| == 0 then map[]
    else
      var init := tools[..|tools| - 1];
      var last := tools[|tools| - 1];
      assert tools == init + [last];
      assert Names(tools) == Names(init) + {last.name};
      NameMap(init)[last.name := last]
  }

  /** The last tool carrying a name is the one the name maps to: a later tool
      with a duplicate name overrides every earlier one. */
  lemma {:induction false} LastWins(tools: seq<Tool>, i: nat)
    requires i < |tools|
    requires forall j :: i < j < |tools| ==> tools[j].name != tools[i].name
    ensures NameMap(tools)[tools[i].name] == tools[i]
    decreases |tools|
  {
    var init := tools[..|tools| - 1];
    var last := tools[|tools| - 1];
    if i < |tools| - 1 {
      assert tools[i] == init[i];
      assert forall j :: i < j < |init| ==> init[j] == tools[j];
      LastWins(init, i);
    }
  }
}

=== FILE: toolround.dfy ===
/**
 One tool round: the loop both drivers run over the tool calls of an
 assistant message. Each call's name is looked up in the name map (a missing
 name raises `KeyError` and ends the loop), the tool is invoked with the
 call's arguments, and its serialized result becomes a tool-result message
 carrying the call's id. The results are collected in request order.
 */
module ToolRound {
  import opened Messages

  /** What the loop leaves behind: the invocations it made, the result
      messages it built, and the `KeyError` that stopped it, if any. */
  datatype Batch = Batch(invoked: seq<Invocation>, results: seq<Message>, failure: Option<Failure>)

  /** Every requested tool name is registered. */
  predicate AllKnown(calls: seq<ToolCall>, byName: map<string, Tool>)
  {
    forall i :: 0 <= i < |calls| ==> calls[i].name in byName
  }

  /** The chat driver's `tc.get("args") or {}`: a missing, `null` or empty
      `args` entry all become the empty dictionary. */
  function ArgsOrEmpty(a: Args): (r: ToolInput)
    ensures r.Mapping?
    ensures a.Dict? ==> r.fields == a.fields
    ensures !a.Dict? ==> r.fields == map[]
  {
    if a.Dict? then Mapping(a.fields) else Mapping(map[])
  }

  /** The one-shot driver's `tc.get("args", {})`: only a missing entry is
      defaulted; a present `null` is passed on as `None`. */
  function ArgsGetDefault(a: Args): (r: ToolInput)
    ensures r.NoneValue? <==> a.Null?
    ensures a.Dict? ==> r == Mapping(a.fields)
    ensures a.Absent? ==> r == Mapping(map[])
  {
    match a
    case Absent => Mapping(map[])
    case Null => NoneValue
    case Dict(f) => Mapping(f)
  }

  /** The two drivers hand a tool different input only for a `null` args entry. */
  lemma ArgPoliciesDiffer(a: Args)
    ensures ArgsOrEmpty(a) != ArgsGetDefault(a) <==> a.Null?
  {
  }

  /** The loop over the tool calls. `argsOf` is the driver's argument
      defaulting and `run` invokes a tool and serializes its result. */
  function RunBatch(calls: seq<ToolCall>, byName: map<string, Tool>,
                    argsOf: Args -> ToolInput, run: (Tool, ToolInput) -> string): (b: Batch)
    ensures |b.invoked| == |b.results| <= |calls|
    ensures b.failure.None? <==> AllKnown(calls, byName)
    ensures b.failure.None? ==> |b.results| == |calls|
    ensures b.failure.Some? ==>
      |b.invoked| < |calls| && b.failure.value == KeyError(calls[|b.invoked|].name)
      && calls[|b.invoked|].name !in byName
    ensures forall i :: 0 <= i < |b.invoked| ==>
      calls[i].name in byName
      && b.invoked[i] == Invocation(byName[calls[i].name], argsOf(calls[i].args))
      && b.results[i] == ToolResult(calls[i].id, run(byName[calls[i].name], argsOf(calls[i].args)))
  {
    if |calls| == 0 then Batch([], [], None)
    else
      var c := calls[0];
      if c.name !in byName then Batch([], [], Some(KeyError(c.name)))
      else
        var tool := byName[c.name];
        var arg := argsOf(c.args);
        var rest := RunBatch(calls[1..], byName, argsOf, run);
        assert AllKnown(calls, byName) <==> AllKnown(calls[1..], byName) by {
          if AllKnown(calls[1..], byName) {
            forall i | 0 <= i < |calls| ensures calls[i].name in byName {
              if i > 0 { assert calls[i] == calls[1..][i - 1]; }
            }
          }
        }
        Batch([Invocation(tool, arg)] + rest.invoked,
              [ToolResult(c.id, run(tool, arg))] + rest.results,
              rest.failure)
  }

  /** The result messages answer the calls one for one: the i-th result
      carries the i-th call's id, so results keep the order of the requests. */
  lemma ResultsMatchCalls(calls: seq<ToolCall>, byName: map<string, Tool>,
                          argsOf: Args -> ToolInput, run: (Tool, ToolInput) -> string)
    requires AllKnown(calls, byName)
    ensures var b := RunBatch(calls, byName, argsOf, run);
      |b.results| == |calls| && |b.invoked| == |calls|
      && forall i :: 0 <= i < |calls| ==> b.results[i].ToolResult? && b.results[i].callId == calls[i].id
  {
  }

  /** A missing name stops the loop: the calls before the first unknown name
      are all invoked and nothing at or after it is. */
  lemma StopsAtFirstUnknown(calls: seq<ToolCall>, byName: map<string, Tool>,
                            argsOf: Args -> ToolInput, run: (Tool, ToolInput) -> string, k: nat)
    requires k < |calls| && calls[k].name !in byName
    requires forall i :: 0 <= i < k ==> calls[i].name in byName
    ensures var b := RunBatch(calls, byName, argsOf, run);
      |b.invoked| == k && b.failure == Some(KeyError(calls[k].name))
  {
  }
}

=== FILE: transcript.dfy ===
/**
 Facts about chat histories: how a trace of events rebuilds the history it
 leaves behind, and when every tool request in a history has its results.
 */
module Transcript {
  import opened Messages

  /** The history after performing `events` on `h`: only `Append` events
      change it, and they only add at the end. */
  function Replay(h: seq<Message>, events: seq<Event>): (r: seq<Message>)
    ensures h <= r
    ensures (forall k :: 0 <= k < |events| ==> !events[k].Append?) ==> r == h
    decreases |events|
  {
    if |events| == 0 then h
    else
      var next := if events[0].Append? then h + events[0].msgs else h;
      Replay(next, events[1..])
  }

  /** Replaying two traces one after the other is replaying their concatenation. */
  lemma {:induction false} ReplayConcat(h: seq<Message>, a: seq<Event>, b: seq<Event>)
    ensures Replay(h, a + b) == Replay(Replay(h, a), b)
    decreases |a|
  {
    if |a| == 0 {
      assert a + b == b;
    } else {
      var next := if a[0].Append? then h + a[0].msgs else h;
      assert (a + b)[1..] == a[1..] + b;
      ReplayConcat(next, a[1..], b);
    }
  }

  /** A single append event adds exactly its messages. */
  lemma ReplayAppend(h: seq<Message>, msgs: seq<Message>)
    ensures Replay(h, [Append(msgs)]) == h + msgs
  {
    assert [Append(msgs)][1..] == [];
  }

  /** The j-th request of the assistant message at position i is answered by
      the message j + 1 places after it: a tool result carrying its id. */
  predicate AnswersCall(h: seq<Message>, i: nat, j: nat)
    requires i < |h| && h[i].AI? && j < |h[i].calls|
  {
    i + 1 + j < |h| && h[i + 1 + j].ToolResult? && h[i + 1 + j].callId == h[i].calls[j].id
  }

  /** Every assistant message that requests tools is followed, immediately and
      in request order, by one tool result per request carrying that
      request's id. This is the shape an LLM call expects of its input. */
  predicate Answered(h: seq<Message>)
  {
    forall i: nat, j: nat :: i < |h| && h[i].AI? && j < |h[i].calls| ==> AnswersCall(h, i, j)
  }

  /** True of a batch of messages that holds a tool result. */
  predicate HoldsResult(msgs: seq<Message>)
  {
    exists i :: 0 <= i < |msgs| && msgs[i].ToolResult?
  }

  /** Appending an answered block to an answered history keeps it answered. */
  lemma AnsweredConcat(h: seq<Message>, ext: seq<Message>)
    requires Answered(h) && Answered(ext)
    ensures Answered(h + ext)
  {
    var r := h + ext;
    forall i: nat, j: nat | i < |r| && r[i].AI? && j < |r[i].calls|
      ensures AnswersCall(r, i, j)
    {
      if i < |h| {
        assert r[i] == h[i];
        assert AnswersCall(h, i, j);
        assert r[i + 1 + j] == h[i + 1 + j];
      } else {
        var x: nat := i - |h|;
        assert r[i] == ext[x];
        assert AnswersCall(ext, x, j);
        assert ext[x + 1 + j] == r[i + 1 + j];
      }
    }
  }

  /** A user message followed by an answer with no tool requests is answered. */
  lemma ExchangeAnswered(userText: string, reply: Message)
    requires reply.AI? && |reply.calls| == 0
    ensures Answered([Human(userText), reply])
  {
  }

  /** A user message, a tool request, its results in request order and an
      answer with no tool requests form an answered block. */
  lemma {:induction false} RoundAnswered(userText: string, request: Message, results: seq<Message>, answer: Message)
    requires request.AI? && |results| == |request.calls|
    requires forall k :: 0 <= k < |results| ==>
      results[k].ToolResult? && results[k].callId == request.calls[k].id
    requires answer.AI? && |answer.calls| == 0
    ensures Answered([Human(userText), request] + results + [answer])
  {
    var ext := [Human(userText), request] + results + [answer];
    forall i: nat, j: nat | i < |ext| && ext[i].AI? && j < |ext[i].calls|
      ensures AnswersCall(ext, i, j)
    {
      if i == 1 {
        assert ext[2 + j] == results[j];
      }
    }
  }

  /** A history that ends in a tool request is not answered. */
  lemma OpenRequestUnanswered(h: seq<Message>, request: Message)
    requires request.AI? && |request.calls| > 0
    ensures !Answered(h + [request])
  {
    var r := h + [request];
    assert r[|h|] == request;
    assert !AnswersCall(r, |h|, 0);
  }
}
